=== FILE: README.md ===
# Onboarding flow of the DeSoc Agent site, in Dafny

This project models the logic behind the site's wallet login and agent onboarding:

- **Onboarding wizard** (`src/app/onboarding/page.tsx`). A three-step form (identity, governance, monetization and privacy). Its component state is a class `OnboardingPage.Wizard` with the fields `currentStep`, `direction`, `submitting`, the form `values`, the form library's `submitted` flag and the shown `errors`. It has the forward and back handlers, the whole-form validation that runs on the last step, and the submission, split at the awaited request. The client form schema is `FormValid`/`FormIssues`. The checkbox toggle of the three multi-select fields is `Toggle`/`ToggleTag`, built on the `filter` model `Without`.
- **User table and onboarding endpoint** (`src/app/api/user/onboarding/route.ts`). The table is a class `UserStore.UserTable` holding a `map` from wallet address to record, plus an id counter. `OnboardingRoute.ParseUser` is the server schema over a JSON body. `OnboardingRoute.EncodeUser` is the JSON the wizard sends. `OnboardingRoute.Post` is the handler: it validates, upserts by address, and answers 200, 400 or 500.
- **Status and profile endpoints** (`check/route.ts`, `profile/route.ts`). These are read-only lookups, so they are functions of the table. `CheckRoute.Check` gives 400, 500, or 200 with `exists`/`hasCompletedOnboarding`. `ProfileRoute.GetProfile` gives 400, 404, 500, or 200 with the selected columns.
- **Login page** (`src/app/login/page.tsx`). It has the email/password schema and the two flags its submit sets (`LoginPage.LoginForm`). After a wallet connects it makes a redirect decision from the status check's answer (`LoginRedirect`).
- **Flows**. These are properties across the pieces. The wizard's request parses on the server. After an onboarding write, the profile shows it and the login page sends the wallet to the dashboard. A never-seen wallet goes to onboarding. Two writes for one address leave one record with the last write's values.

External collaborators are inputs:
- The connected wallet address is an `Option<string>` parameter. JavaScript truthiness is `Web.Truthy`.
- Each awaited `fetch` is a `FetchOutcome`: an exception, or a response with a status and a body.
- A failing database call is a `storeFails` flag.
- A request body that is not JSON is `None`.

Behaviour worth knowing:
- `goToNextStep` does not validate the current step before moving forward. Validation runs only through the form's submit handler. As the forward button is written, that handler can already run on the click that leaves step 1 (see "## Findings"). The model's `PressNext` follows the evident intent: validation and submission happen only from the last step.
- `votingStrategy` and `zkmlPrivacyPreference` accept any string in both schemas.
- Each rule of the client schema reports its own field (`FormIssuesPerField`). A draft with name `"X"`, email `"bad-email"` and one interest reports `email` and `agentName` (`MalformedEmailAndShortName`).
- The form is created with the form library's default re-validation mode (src/app/onboarding/page.tsx:112-126). The form counts as submitted once the submit handler has finished. A first attempt that sends a request finishes only when the request settles. From then on, a checkbox change validates the form again and replaces the error of the changed field only (`Wizard.ToggleTagField`). While the first request is in flight, Back stays enabled and checkbox changes show no new errors.
- The update branch of the upsert passes an absent `email`/`ensName` as `undefined`. The database client then leaves that column as stored (`UserStore.Updated`). So a later write overwrites every field it carries, but not an optional string it omits.
- The wizard's default `email: ""` is a string, so the email rule applies to it. A user who leaves the email empty cannot submit (`DefaultEmailBlocksSubmission`).

## Model

| member | source | states |
|---|---|---|
| `UserStore.Created` | src/app/api/user/onboarding/route.ts:54-70 | the create data stores the submitted values under the submitted address, with the given id, onboarding complete and the three JSON columns `{}` |
| `UserStore.Updated` | src/app/api/user/onboarding/route.ts:38-53 | the update data keeps the record's id and key, sets onboarding complete, resets the three JSON columns to `{}`, writes every submitted value, and keeps the stored email/ensName when the request omits them |
| `UserStore.UpsertRecord` | src/app/api/user/onboarding/route.ts:34-71 | the record left under the address reflects the submission; its id is the existing record's id, or the next id when it is new |
| `UserStore.UpsertKeepsConsistent` | src/app/api/user/onboarding/route.ts:34-71 | an upsert keeps every record under its own address with unique ids, adds exactly the submitted address to the keys, and leaves every other address's record unchanged |
| `UserStore.UserTable.Upsert` | src/app/api/user/onboarding/route.ts:34-71 | the table's map gains or replaces exactly the entry for the address; the id counter advances only on create; the table stays consistent |
| `OnboardingRoute.StringItems` | src/app/api/user/onboarding/route.ts:11-15 | an array passes `z.array(z.string())` iff every item is a string, and then yields those strings in order |
| `OnboardingRoute.UserIssues` | src/app/api/user/onboarding/route.ts:6-18 | the reported paths are schema keys or the root, and the root is reported exactly when the body is not an object |
| `OnboardingRoute.EncodeUser` | src/app/onboarding/page.tsx:141-152 | the body is an object carrying every schema key except the optional strings, and `email`/`ensName` appear exactly when the form holds them |
| `OnboardingRoute.ParseUser` | src/app/api/user/onboarding/route.ts:6-18 | parsing succeeds iff no schema key fails; a failure carries the non-empty set of failing keys; a success meets the email and name rules |
| `OnboardingRoute.AcceptedBodyIsEncoding` | src/app/api/user/onboarding/route.ts:6-26 | an accepted body is an object; the parsed request holds the body's `walletAddress`, and encoding the request gives back exactly the body's schema keys with their values, unknown keys dropped |
| `OnboardingRoute.ParseEncodeRoundTrip` | src/app/api/user/onboarding/route.ts:6-26 | the JSON body built from a request parses back to exactly that request when it meets the server rules, and is rejected otherwise |
| `OnboardingRoute.StringItemsOfStrings` | src/app/api/user/onboarding/route.ts:11-15 | a list of strings sent as a JSON array reads back as the same list |
| `OnboardingRoute.ServerAcceptsNoInterests` | src/app/api/user/onboarding/route.ts:11 | the server accepts an empty `interestAreas`, since its schema has no minimum |
| `OnboardingRoute.ShortNameRejected` | src/app/api/user/onboarding/route.ts:9 | a name shorter than three characters fails validation and is reported under `agentName` |
| `OnboardingRoute.NonBooleanDelegateRejected` | src/app/api/user/onboarding/route.ts:14 | a non-boolean `delegateVoting` fails validation and is reported under `delegateVoting` |
| `OnboardingRoute.Post` | src/app/api/user/onboarding/route.ts:20-109 | a non-JSON body or a store failure gives 500 with the generic message; a schema failure gives 400 "Validation error" with the failing keys; no failure changes the table; success upserts by address and answers 200 with id, address and name of the stored record |
| `CheckRoute.Check` | src/app/api/user/check/route.ts:4-58 | a missing or empty address gives 400; a store failure gives 500; otherwise 200 with `exists` iff a record is stored and `hasCompletedOnboarding` equal to its flag (false when none) |
| `CheckRoute.UnknownAddressIsNotAnError` | src/app/api/user/check/route.ts:30-39 | an unknown address is a 200 with `exists: false, hasCompletedOnboarding: false` |
| `ProfileRoute.GetProfile` | src/app/api/user/profile/route.ts:4-69 | a missing or empty address gives 400; a store failure gives 500; an unknown address gives 404 "User not found"; otherwise 200 with exactly the selected columns of the stored record |
| `ProfileRoute.FoundShowsRecord` | src/app/api/user/profile/route.ts:19-59 | a stored record's profile shows its id, address, form values and onboarding flag |
| `OnboardingPage.FormIssues` | src/app/onboarding/page.tsx:35-59 | the reported fields are among email, agentName and interestAreas, and none is reported iff the form is valid |
| `OnboardingPage.DefaultEmailBlocksSubmission` | src/app/onboarding/page.tsx:37 | a form whose email is the empty string is invalid and reports `email` |
| `OnboardingPage.DefaultValuesInvalid` | src/app/onboarding/page.tsx:114-125 | the default values fail all three rules |
| `OnboardingPage.FormIssuesPerField` | src/app/onboarding/page.tsx:35-46 | agentName is reported iff the name is shorter than three characters, interestAreas iff no interest is checked, email iff an email string is given and is not an email |
| `OnboardingPage.MalformedEmailAndShortName` | src/app/onboarding/page.tsx:35-46 | a malformed email and a one-letter name with one interest report email and agentName and not interestAreas |
| `OnboardingPage.FormValidPassesServer` | src/app/onboarding/page.tsx:141-152 | a form that passes the wizard's schema, sent with any address, passes the server's schema and parses back to the same request |
| `OnboardingPage.Without` | src/app/onboarding/page.tsx:368-374 | the result holds exactly the elements of the list other than the id, and is no longer than the list |
| `OnboardingPage.WithoutConcat` | src/app/onboarding/page.tsx:368-374 | filtering distributes over concatenation, so the kept elements keep their order |
| `OnboardingPage.WithoutCounts` | src/app/onboarding/page.tsx:368-374 | every occurrence of the id is removed and every other element keeps its number of occurrences |
| `OnboardingPage.WithoutAbsent` | src/app/onboarding/page.tsx:368-374 | filtering out an id that is not in the list leaves the list unchanged |
| `OnboardingPage.Toggle` | src/app/onboarding/page.tsx:363-374 | checking appends the id after the unchanged earlier elements; unchecking leaves no occurrence of the id and keeps every other element |
| `OnboardingPage.ToggleOnThenOff` | src/app/onboarding/page.tsx:363-374 | checking an unselected id and unchecking it again restores the list |
| `OnboardingPage.ToggleTag` | src/app/onboarding/page.tsx:441-459 | a checkbox change toggles the list of its own field and changes no other field |
| `OnboardingPage.CheckingInterestCompletesForm` | src/app/onboarding/page.tsx:44-46 | with a valid name and email, checking any interest area makes the form valid |
| `OnboardingPage.Wizard.constructor` | src/app/onboarding/page.tsx:107-126 | the wizard starts on step 0 with direction 0, not submitting, default values, no submit attempt and no errors |
| `OnboardingPage.Wizard.GoToNextStep` | src/app/onboarding/page.tsx:169-176 | below the last step: direction 1, step plus one, nothing sent; on the last step: step and direction unchanged, errors set to the failing fields, a request sent (and `submitting` set) iff the form is valid and an address is connected, and the form marked submitted at once when no request is sent, otherwise keeping its earlier mark; the step stays in 0..2 |
| `OnboardingPage.Wizard.GoToPreviousStep` | src/app/onboarding/page.tsx:178-183 | when Back is enabled (above step 0): direction -1, step minus one; when it is disabled: step and direction unchanged |
| `OnboardingPage.Wizard.HandleSubmit` | src/app/onboarding/page.tsx:268 | the whole form is validated, the failing fields become the errors, the submit handler runs only when none fail, and the form is marked submitted at once when no request is sent, otherwise keeping its earlier mark |
| `OnboardingPage.Wizard.OnSubmit` | src/app/onboarding/page.tsx:132-144 | without an address nothing is sent and `submitting` is untouched; with one, `submitting` becomes true and the request is the form values plus the address |
| `OnboardingPage.Wizard.OnSubmitSettled` | src/app/onboarding/page.tsx:155-165 | `submitting` ends false and the form is marked submitted on every outcome; navigation to the dashboard happens iff the response is ok; the step is untouched |
| `OnboardingPage.Wizard.ToggleTagField` | src/app/onboarding/page.tsx:356-375 | a checkbox change replaces the form values with their toggled version; before a submit attempt the errors stay, after one the changed field's error is set iff the schema still fails it, no other field's error changes, and checking an interest clears the interestAreas error |
| `OnboardingPage.Wizard.PressNext` | src/app/onboarding/page.tsx:706-711 | while a submission is in flight the press changes nothing and sends nothing; otherwise it has exactly the effect of `goToNextStep`; a request is only ever sent from the last step when none was in flight |
| `OnboardingPage.Wizard.PressNextAsWritten` | src/app/onboarding/page.tsx:706-711 | as the button is written: the same press, except that the press on step 1 moves to step 2 and then runs the submit handler, so a valid form with a connected wallet is validated and sent on that click |
| `OnboardingPage.CompleteBeforeLastStep` | src/app/onboarding/page.tsx:35-46 | a draft whose step-0 fields are filled in and whose later fields keep their defaults already passes the form schema |
| `LoginPage.LoginIssues` | src/app/login/page.tsx:28-34 | the reported fields are among email and password, and none is reported iff the email is an email and the password has at least six characters |
| `LoginPage.LoginIssuesPerField` | src/app/login/page.tsx:28-34 | email is reported iff it is not an email, password iff it is shorter than six characters |
| `LoginPage.DefaultLoginInvalid` | src/app/login/page.tsx:48-52 | the default login values fail both rules, and `remember` starts false |
| `LoginPage.CheckQuery` | src/app/login/page.tsx:68-96 | the status check is requested, with the address, iff the wallet is connected and has an address |
| `LoginPage.RouteFromCheck` | src/app/login/page.tsx:78-89 | no navigation on an exception or a non-ok status; the dashboard iff ok and the user exists and has completed onboarding; the onboarding wizard on any other ok answer |
| `LoginPage.LoginRedirect` | src/app/login/page.tsx:68-96 | no navigation unless connected with an address; otherwise the route chosen from the check's answer |
| `LoginPage.LoginForm.constructor` | src/app/login/page.tsx:42-43 | both flags start false |
| `LoginPage.LoginForm.HandleSubmit` | src/app/login/page.tsx:56-65 | valid values set both `formSubmitted` and `loading` and schedule the dashboard; invalid values change nothing |
| `Flows.ProfileAfterOnboarding` | src/app/api/user/profile/route.ts:19-59 | after an onboarding write for an address, its profile is a 200 showing the submitted name and interests and completed onboarding, and all submitted values when both optional strings were given |
| `Flows.LastWriteWins` | src/app/api/user/onboarding/route.ts:34-71 | two writes for one address leave the table consistent with one record for it, the first write's id, the second write's values, and other addresses untouched |
| `Flows.UpsertKeepsAllOnboarded` | src/app/api/user/onboarding/route.ts:49-66 | a table whose records have all completed onboarding keeps that property across an upsert |
| `Flows.NeverSeenWalletGoesToOnboarding` | src/app/login/page.tsx:79-85 | a connected wallet the table has never seen is checked and sent to the onboarding wizard |
| `Flows.LoginRouteByRecord` | src/app/login/page.tsx:78-85 | when every record has completed onboarding, a connected wallet goes to the dashboard iff it has a record, and to onboarding otherwise |
| `Flows.OnboardedWalletGoesToDashboard` | src/app/login/page.tsx:79-81 | after an onboarding write for a wallet, the login page sends that wallet to the dashboard |
| `Flows.SubmitOnboarding` | src/app/onboarding/page.tsx:132-166 | from a valid form on the last step: the table becomes the upsert of the submitted address and form values, the wizard clears `submitting`, is marked submitted with no errors, and navigates to the dashboard, the profile shows the submitted name, and the login page routes the wallet to the dashboard |

## Left out

- The schema library's email check is replaced by `Web.IsEmail`, a stand-in that asks for one '@' and a dotted domain. Every contract is stated in terms of `IsEmail`. Only two facts depend on its body: `""` and `"bad-email"` are not emails.
- Validation details are the set of top-level keys with an issue, and `""` stands for the root. Per-element paths, issue codes and messages are not modelled. String lengths count characters, not UTF-16 code units.
- JSON numbers are integers. A body that is not valid JSON is an absent body. It leads to the generic 500, as the thrown parse error does.
- `fetch`, `await`, the login page's 1.5 s `setTimeout` and `console` logging are not modelled. Each awaited answer is an input, and the delayed navigation is a returned route.
- The database: the upsert is atomic and a failure leaves the table unchanged. New ids come from a counter, since the database schema is not part of this model. `profilePicture` and `zkmlReputationScore` are absent on create and untouched by update, because their defaults live in that schema.
- Text, select and switch inputs write one form value each through the form library. They are not modelled as separate operations, and neither is the re-validation a change of theirs triggers after a submit attempt. `Wizard.values` is the state they write, and only the multi-select toggle is an operation.
- React effect scheduling (re-running on dependency changes), `useEnsName`, and the wallet connection itself are not modelled. The address and `isConnected` are inputs.
- The "Wallet Not Connected" screen the wizard shows without an address (src/app/onboarding/page.tsx:202-218) is markup with a link to the login page.
- Presentation is not modelled: slide animations driven by `direction`, the progress bar, step titles, button labels, and the login page's switch to its "loading" view.
- The `remember` field passes through the schema unchanged. Its default of false comes from the form's default values.
- The dashboard page, the marketing components, the navigation bar and the site configuration are not modelled. They are markup, timers or third-party configuration.

## Findings

| source | as written | input that shows it | evidently intended | confidence | as-written member | corrected member |
|---|---|---|---|---|---|---|
| src/app/onboarding/page.tsx:706-711 | The forward button is one element whose `type` is `"submit"` on the last step and `"button"` before it. The click on step 1 calls `goToNextStep`, which re-renders it as a submit button before the browser's default action for that click runs, so the same click also submits the form. | Name `"Ada"`, email `"ada@dao.org"` and interest `"defi"` entered on step 0, a connected wallet, Continue pressed on step 1: the wizard shows step 2 and sends the request with the step-2 defaults (`CompleteBeforeLastStep`). | The Continue press only moves to the next step; the form is validated and sent only by the press on the last step. | not executed; medium: it depends on the framework committing the re-render before the default action | `OnboardingPage.Wizard.PressNextAsWritten` | `OnboardingPage.Wizard.PressNext` |

=== FILE: check_route.dfy ===
/**
 * GET /api/user/check?walletAddress=…: whether a record exists for the
 * address and whether its onboarding is complete. A read-only lookup: the
 * route is a function of the table, so no path can change it.
 */
module CheckRoute {
  import opened Wrappers
  import opened Web
  import opened UserStore

  /** The response body; `userExists` is the JSON key `exists`. */
  datatype CheckBody =
    | CheckStatus(userExists: bool, hasCompletedOnboarding: bool)
    | CheckError(error: string)

  const AddressRequired: string := "Wallet address is required"
  const CheckFailed: string := "Failed to check user profile"

  /**
   * The handler. `walletAddress` is the query parameter (None when it is
   * missing); `storeFails` says whether the lookup throws.
   */
  function Check(users: map<string, User>, walletAddress: Option<string>, storeFails: bool): (r: Response<CheckBody>)
    ensures !Truthy(walletAddress) ==> r == Response(400, CheckError(AddressRequired))
    ensures Truthy(walletAddress) && storeFails ==> r == Response(500, CheckError(CheckFailed))
    ensures r.status == 200 <==> Truthy(walletAddress) && !storeFails
    ensures r.status == 200 ==> r.body.CheckStatus?
    ensures r.status == 200 ==>
              var a := walletAddress.value;
              && r.body.userExists == (a in users)
              && r.body.hasCompletedOnboarding == (a in users && users[a].hasCompletedOnboarding)
  {
    if !Truthy(walletAddress) then Response(400, CheckError(AddressRequired))
    else if storeFails then Response(500, CheckError(CheckFailed))
    else if walletAddress.value !in users then Response(200, CheckStatus(false, false))
    else Response(200, CheckStatus(true, users[walletAddress.value].hasCompletedOnboarding))
  }

  /** An address with no record is never an error: it is a 200 saying the user does not exist. */
  lemma UnknownAddressIsNotAnError(users: map<string, User>, a: string)
    requires a != "" && a !in users
    ensures Check(users, Some(a), false) == Response(200, CheckStatus(false, false))
  {
  }
}

=== FILE: flows.dfy ===
/**
 * Properties that span the endpoints and the two pages: what the profile
 * and the status check report after an onboarding write, repeated writes
 * for one address, and where the login page sends a wallet.
 */
module Flows {
  import opened Wrappers
  import opened Web
  import opened Profile
  import opened UserStore
  import OnboardingRoute
  import opened CheckRoute
  import opened ProfileRoute
  import OnboardingPage
  import opened LoginPage

  /** After an onboarding write for `u`, the profile of its address shows the submitted name and completed onboarding. */
  lemma ProfileAfterOnboarding(users: map<string, User>, nextId: nat, u: UserInput)
    requires Consistent(users, nextId)
    requires u.walletAddress != ""
    ensures var r := GetProfile(Upserted(users, nextId, u), Some(u.walletAddress), false);
      && r.status == 200
      && r.body.user.walletAddress == u.walletAddress
      && r.body.user.fields.agentName == u.fields.agentName
      && r.body.user.fields.interestAreas == u.fields.interestAreas
      && r.body.user.hasCompletedOnboarding
      && (u.fields.email.Some? && u.fields.ensName.Some? ==> r.body.user.fields == u.fields)
  {
  }

  /**
   * Two writes for one address: the table stays keyed by address with
   * unique ids, holds one record for the address, keeps the id of the
   * first write, and shows the second write's values.
   */
  lemma LastWriteWins(users: map<string, User>, nextId: nat, first: UserInput, second: UserInput)
    requires Consistent(users, nextId)
    requires first.walletAddress == second.walletAddress
    ensures var users1 := Upserted(users, nextId, first);
      var next1 := NextIdAfter(users, nextId, first);
      && Consistent(users1, next1)
      && var users2 := Upserted(users1, next1, second);
         var a := second.walletAddress;
         && Consistent(users2, NextIdAfter(users1, next1, second))
         && users2.Keys == users.Keys + {a}
         && users2[a].id == users1[a].id
         && Reflects(users2[a], second)
         && (forall b :: b in users && b != a ==> users2[b] == users[b])
  {
  }

  /** Every stored record has completed onboarding; what a table written only by the onboarding endpoint satisfies. */
  ghost predicate AllOnboarded(users: map<string, User>) {
    forall a :: a in users ==> users[a].hasCompletedOnboarding
  }

  lemma UpsertKeepsAllOnboarded(users: map<string, User>, nextId: nat, u: UserInput)
    requires Consistent(users, nextId) && AllOnboarded(users)
    ensures AllOnboarded(Upserted(users, nextId, u))
  {
  }

  /** A wallet the table has never seen is sent to the onboarding wizard. */
  lemma NeverSeenWalletGoesToOnboarding(users: map<string, User>, a: string)
    requires a != "" && a !in users
    ensures CheckQuery(true, Some(a)) == Some(a)
    ensures LoginRedirect(true, Some(a), Received(Check(users, Some(a), false))) == Some(Onboarding)
  {
  }

  /**
   * In a table whose records have all completed onboarding, a connected
   * wallet goes to the dashboard exactly when it has a record.
   */
  lemma LoginRouteByRecord(users: map<string, User>, a: string)
    requires a != "" && AllOnboarded(users)
    ensures var r := LoginRedirect(true, Some(a), Received(Check(users, Some(a), false)));
      && (r == Some(Dashboard) <==> a in users)
      && (r == Some(Onboarding) <==> a !in users)
  {
  }

  /** After an onboarding write, the login page sends that wallet to the dashboard. */
  lemma OnboardedWalletGoesToDashboard(users: map<string, User>, nextId: nat, u: UserInput)
    requires Consistent(users, nextId)
    requires u.walletAddress != ""
    ensures LoginRedirect(true, Some(u.walletAddress),
                          Received(Check(Upserted(users, nextId, u), Some(u.walletAddress), false))) == Some(Dashboard)
  {
  }

  /**
   * The whole flow from a valid form on the last step: the wizard sends the
   * request, the endpoint stores it, the wizard navigates to the dashboard,
   * and afterwards the profile shows the name and the login page sends the
   * wallet to the dashboard.
   */
  method SubmitOnboarding(wizard: OnboardingPage.Wizard, table: UserTable, address: Option<string>)
    returns (nav: Option<Route>)
    requires wizard.Valid() && wizard.currentStep == OnboardingPage.LastStep && !wizard.submitting
    requires OnboardingPage.FormValid(wizard.values) && Truthy(address)
    requires table.Valid()
    modifies wizard, table
    ensures table.Valid() && !wizard.submitting && wizard.currentStep == old(wizard.currentStep)
    ensures wizard.submitted && wizard.errors == {}
    ensures nav == Some(Dashboard)
    ensures table.users == Upserted(old(table.users), old(table.nextId), UserInput(address.value, old(wizard.values)))
    ensures GetProfile(table.users, address, false).status == 200
    ensures GetProfile(table.users, address, false).body.user.fields.agentName == old(wizard.values.agentName)
    ensures LoginRedirect(true, address, Received(Check(table.users, address, false))) == Some(Dashboard)
  {
    var request := wizard.GoToNextStep(address);
    var u := UserInput(address.value, wizard.values);
    assert request == Some(u);
    OnboardingPage.FormValidPassesServer(wizard.values, address.value);
    var resp := OnboardingRoute.Post(table, Some(OnboardingRoute.EncodeUser(u)), false);
    assert table.users == Upserted(old(table.users), old(table.nextId), u);
    ProfileAfterOnboarding(old(table.users), old(table.nextId), u);
    OnboardedWalletGoesToDashboard(old(table.users), old(table.nextId), u);
    nav := wizard.OnSubmitSettled(Received(resp));
  }
}

=== FILE: login_page.dfy ===
/**
 * The login page: the email/password form schema, the flags its submit
 * sets, and the redirect it makes after a wallet connects, from the
 * answer of the onboarding-status check.
 */
module LoginPage {
  import opened Wrappers
  import opened Web
  import opened CheckRoute

  /** The login form; `remember` may be absent. */
  datatype LoginValues = LoginValues(email: string, password: string, remember: Option<bool>)

  function DefaultLoginValues(): LoginValues {
    LoginValues("", "", Some(false))
  }

  /** `loginSchema`: an email and a password of at least six characters; `remember` is any boolean or absent. */
  predicate LoginValid(v: LoginValues) {
    IsEmail(v.email) && |v.password| >= 6
  }

  /** The fields the schema reports, each only when its own rule fails. */
  function LoginIssues(v: LoginValues): (r: set<string>)
    ensures r <= {"email", "password"}
    ensures r == {} <==> LoginValid(v)
  {
    (if !IsEmail(v.email) then {"email"} else {})
    + (if |v.password| < 6 then {"password"} else {})
  }

  /** Each field is reported exactly when its own rule fails, whatever the other field holds. */
  lemma LoginIssuesPerField(v: LoginValues)
    ensures "email" in LoginIssues(v) <==> !IsEmail(v.email)
    ensures "password" in LoginIssues(v) <==> |v.password| < 6
  {
  }

  /** The defaults fail both rules, and `remember` starts false. */
  lemma DefaultLoginInvalid()
    ensures LoginIssues(DefaultLoginValues()) == {"email", "password"}
    ensures DefaultLoginValues().remember == Some(false)
  {
  }

  /** The query the effect sends: the address, and only when a wallet is connected with an address. */
  function CheckQuery(isConnected: bool, address: Option<string>): (q: Option<string>)
    ensures q.Some? <==> isConnected && Truthy(address)
    ensures q.Some? ==> q == address
  {
    if isConnected && Truthy(address) then address else None
  }

  /**
   * The route chosen from the check's answer: none on an exception or a
   * non-ok status; the dashboard when the user exists and has completed
   * onboarding; the onboarding wizard otherwise. A body without the two
   * flags reads them as undefined, which is false.
   */
  function RouteFromCheck(outcome: FetchOutcome<CheckBody>): (r: Option<Route>)
    ensures r.None? <==> outcome.Threw? || !IsOk(outcome.response.status)
    ensures r == Some(Dashboard) <==>
              && outcome.Received? && IsOk(outcome.response.status)
              && outcome.response.body.CheckStatus?
              && outcome.response.body.userExists && outcome.response.body.hasCompletedOnboarding
  {
    match outcome
    case Threw => None
    case Received(resp) =>
      if !IsOk(resp.status) then None
      else if resp.body.CheckStatus? && resp.body.userExists && resp.body.hasCompletedOnboarding then Some(Dashboard)
      else Some(Onboarding)
  }

  /**
   * The effect after a wallet connects: no check and no navigation unless
   * connected with an address; otherwise the route from the check's answer.
   */
  function LoginRedirect(isConnected: bool, address: Option<string>, outcome: FetchOutcome<CheckBody>): (r: Option<Route>)
    ensures CheckQuery(isConnected, address).None? ==> r.None?
    ensures CheckQuery(isConnected, address).Some? ==> r == RouteFromCheck(outcome)
  {
    if CheckQuery(isConnected, address).Some? then RouteFromCheck(outcome) else None
  }

  /** The page's two state flags. */
  class LoginForm {
    var loading: bool
    var formSubmitted: bool

    constructor ()
      ensures !loading && !formSubmitted
    {
      loading := false;
      formSubmitted := false;
    }

    /**
     * `form.handleSubmit(onSubmit)`: on valid values both flags are set and
     * a navigation to the dashboard is scheduled after a fixed delay;
     * invalid values change nothing.
     */
    method HandleSubmit(v: LoginValues) returns (scheduled: Option<Route>)
      modifies this
      ensures LoginValid(v) ==> formSubmitted && loading && scheduled == Some(Dashboard)
      ensures !LoginValid(v) ==> unchanged(this) && scheduled.None?
    {
      if !LoginValid(v) {
        return None;
      }
      formSubmitted := true;
      loading := true;
      scheduled := Some(Dashboard);
    }
  }
}

=== FILE: onboarding_page.dfy ===
/**
 * The onboarding wizard: three steps (identity, governance, monetization
 * and privacy) over one form, the client form schema, the multi-select
 * tag toggle, and the submission that posts the form with the connected
 * wallet address.
 */
module OnboardingPage {
  import opened Wrappers
  import opened Web
  import opened Profile
  import OnboardingRoute

  /** The step ids, in order. */
  const Steps: seq<string> := ["identity", "governance", "monetization"]
  const LastStep: int := |Steps| - 1

  /** The form's default values. */
  function DefaultValues(): ProfileFields {
    ProfileFields(
      email := Some(""), agentName := "", ensName := Some(""),
      interestAreas := [], preferredDAOs := [], votingStrategy := "community",
      delegateVoting := false, skillsExpertise := [], autoMonetization := false,
      zkmlPrivacyPreference := "medium")
  }

  // ---- the client form schema ----

  /**
   * `formSchema`: an email only if a string is given (an empty string is
   * a given string), a name of at least three characters, at least one
   * interest area. The other fields are constrained only by their types.
   */
  predicate FormValid(d: ProfileFields) {
    && (d.email.None? || IsEmail(d.email.value))
    && |d.agentName| >= 3
    && |d.interestAreas| >= 1
  }

  /** The fields the schema reports, each only when its own rule fails. */
  function FormIssues(d: ProfileFields): (r: set<string>)
    ensures r <= {"email", "agentName", "interestAreas"}
    ensures r == {} <==> FormValid(d)
  {
    (if d.email.Some? && !IsEmail(d.email.value) then {"email"} else {})
    + (if |d.agentName| < 3 then {"agentName"} else {})
    + (if |d.interestAreas| == 0 then {"interestAreas"} else {})
  }

  /** Each of the three fields is reported exactly when its own rule fails, whatever the other fields hold. */
  lemma FormIssuesPerField(d: ProfileFields)
    ensures "agentName" in FormIssues(d) <==> |d.agentName| < 3
    ensures "interestAreas" in FormIssues(d) <==> |d.interestAreas| == 0
    ensures "email" in FormIssues(d) <==> d.email.Some? && !IsEmail(d.email.value)
  {
  }

  /**
   * A draft can be complete before the last step: name, email and an
   * interest are all entered on the first step, and the last two steps
   * start from defaults the schema accepts.
   */
  lemma CompleteBeforeLastStep()
    ensures FormValid(DefaultValues().(email := Some("ada@dao.org"), agentName := "Ada", interestAreas := ["defi"]))
  {
    var s := "ada@dao.org";
    assert s[3] == '@' && s[..3] == "ada";
    var d := s[4..];
    assert d == "dao.org" && d[3] == '.';
  }

  /** A form still holding the default `email: ""` cannot be submitted. */
  lemma DefaultEmailBlocksSubmission(d: ProfileFields)
    requires d.email == Some("")
    ensures !FormValid(d) && "email" in FormIssues(d)
  {
  }

  /** The defaults fail all three rules. */
  lemma DefaultValuesInvalid()
    ensures FormIssues(DefaultValues()) == {"email", "agentName", "interestAreas"}
  {
  }

  /** A one-letter name with a malformed email and one interest reports `email` and `agentName`, not `interestAreas`. */
  lemma MalformedEmailAndShortName()
    ensures FormIssues(DefaultValues().(agentName := "X", email := Some("bad-email"), interestAreas := ["dao"]))
            == {"email", "agentName"}
  {
  }

  /** Whatever passes the wizard's schema passes the server's, and its wire form parses back to it. */
  lemma FormValidPassesServer(d: ProfileFields, address: string)
    requires FormValid(d)
    ensures OnboardingRoute.ServerValid(UserInput(address, d))
    ensures OnboardingRoute.ParseUser(OnboardingRoute.EncodeUser(UserInput(address, d))) == Ok(UserInput(address, d))
  {
    OnboardingRoute.ParseEncodeRoundTrip(UserInput(address, d));
  }

  // ---- the multi-select toggle ----

  /** `list.filter(value => value !== id)`. */
  function Without(s: seq<string>, id: string): (r: seq<string>)
    ensures forall x :: x in r <==> x in s && x != id
    ensures |r| <= |s|
  {
    if s == [] then []
    else if s[0] == id then Without(s[1..], id)
    else [s[0]] + Without(s[1..], id)
  }

  /** Filtering distributes over concatenation, so the kept elements stay in their order. */
  lemma {:induction false} WithoutConcat(a: seq<string>, b: seq<string>, id: string)
    ensures Without(a + b, id) == Without(a, id) + Without(b, id)
  {
    if a == [] {
      assert a + b == b;
    } else {
      assert (a + b)[0] == a[0] && (a + b)[1..] == a[1..] + b;
      WithoutConcat(a[1..], b, id);
    }
  }

  /** Every occurrence of the id goes; every other element keeps its number of occurrences. */
  lemma {:induction false} WithoutCounts(s: seq<string>, id: string, x: string)
    ensures multiset(Without(s, id))[x] == if x == id then 0 else multiset(s)[x]
  {
    if s != [] {
      WithoutCounts(s[1..], id, x);
      assert s == [s[0]] + s[1..];
    }
  }

  /** Filtering out an id that is not there changes nothing. */
  lemma {:induction false} WithoutAbsent(s: seq<string>, id: string)
    requires id !in s
    ensures Without(s, id) == s
  {
    if s != [] {
      WithoutAbsent(s[1..], id);
      assert s == [s[0]] + s[1..];
    }
  }

  /**
   * A checkbox change: checking appends the id after the earlier elements;
   * unchecking removes every occurrence and keeps the rest in order.
   */
  function Toggle(s: seq<string>, id: string, checked: bool): (r: seq<string>)
    ensures checked ==> |r| == |s| + 1 && r[..|s|] == s && r[|s|] == id
    ensures !checked ==> id !in r && forall x :: x in s && x != id ==> x in r
  {
    if checked then s + [id] else Without(s, id)
  }

  /** Checking an id that was not selected and unchecking it again restores the list. */
  lemma ToggleOnThenOff(s: seq<string>, id: string)
    requires id !in s
    ensures Toggle(Toggle(s, id, true), id, false) == s
  {
    WithoutConcat(s, [id], id);
    WithoutAbsent(s, id);
  }

  /** The three multi-select fields, each bound to its own list of ids. */
  datatype TagField = InterestAreas | PreferredDAOs | SkillsExpertise

  /** The form field name a multi-select is registered under. */
  function FieldName(f: TagField): string {
    match f
    case InterestAreas => "interestAreas"
    case PreferredDAOs => "preferredDAOs"
    case SkillsExpertise => "skillsExpertise"
  }

  function Tags(d: ProfileFields, f: TagField): seq<string> {
    match f
    case InterestAreas => d.interestAreas
    case PreferredDAOs => d.preferredDAOs
    case SkillsExpertise => d.skillsExpertise
  }

  /** A checkbox change in field f: that field's list is toggled and no other field changes. */
  function ToggleTag(d: ProfileFields, f: TagField, id: string, checked: bool): (r: ProfileFields)
    ensures Tags(r, f) == Toggle(Tags(d, f), id, checked)
    ensures forall g :: g != f ==> Tags(r, g) == Tags(d, g)
    ensures r.email == d.email && r.agentName == d.agentName && r.ensName == d.ensName
    ensures r.votingStrategy == d.votingStrategy && r.delegateVoting == d.delegateVoting
    ensures r.autoMonetization == d.autoMonetization && r.zkmlPrivacyPreference == d.zkmlPrivacyPreference
  {
    var tags := Toggle(Tags(d, f), id, checked);
    match f
    case InterestAreas => d.(interestAreas := tags)
    case PreferredDAOs => d.(preferredDAOs := tags)
    case SkillsExpertise => d.(skillsExpertise := tags)
  }

  /** Checking an interest area makes a form whose other rules hold valid. */
  lemma CheckingInterestCompletesForm(d: ProfileFields, id: string)
    requires d.email.None? || IsEmail(d.email.value)
    requires |d.agentName| >= 3
    ensures FormValid(ToggleTag(d, InterestAreas, id, true))
  {
  }

  // ---- the controller ----

  /**
   * The wizard's component state: the step, the slide direction, the
   * in-flight flag, the form, whether the form has had a submit attempt,
   * and the fields whose errors are shown.
   */
  class Wizard {
    var currentStep: int
    var direction: int
    var submitting: bool
    var values: ProfileFields
    var submitted: bool
    var errors: set<string>

    ghost predicate Valid()
      reads this
    {
      0 <= currentStep <= LastStep && -1 <= direction <= 1
    }

    constructor ()
      ensures Valid()
      ensures currentStep == 0 && direction == 0 && !submitting
      ensures values == DefaultValues() && !submitted && errors == {}
    {
      currentStep := 0;
      direction := 0;
      submitting := false;
      values := DefaultValues();
      submitted := false;
      errors := {};
    }

    /** The Back button is disabled on the first step. */
    predicate BackEnabled()
      reads this
    {
      currentStep != 0
    }

    /** The forward button is disabled while a submission is in flight. */
    predicate NextEnabled()
      reads this
    {
      !submitting
    }

    /**
     * The effect of `goToNextStep`: below the last step, one step forward
     * with nothing sent; on the last step, the submit handler's effect.
     */
    twostate predicate SteppedForward(address: Option<string>, new request: Option<UserInput>)
      reads this
    {
      && values == old(values)
      && (old(currentStep) < LastStep ==>
            && currentStep == old(currentStep) + 1 && direction == 1
            && request.None? && submitting == old(submitting)
            && submitted == old(submitted) && errors == old(errors))
      && (old(currentStep) == LastStep ==>
            && currentStep == old(currentStep) && direction == old(direction)
            && errors == FormIssues(values)
            && request == (if FormValid(values) && Truthy(address) then Some(UserInput(address.value, values)) else None)
            && submitting == (request.Some? || old(submitting))
            && submitted == (request.None? || old(submitted)))
    }

    /** `goToNextStep`: one step forward, or on the last step validate and submit. */
    method GoToNextStep(address: Option<string>) returns (request: Option<UserInput>)
      requires Valid()
      modifies this
      ensures Valid()
      ensures SteppedForward(address, request)
    {
      if currentStep < LastStep {
        direction := 1;
        currentStep := currentStep + 1;
        request := None;
      } else {
        request := HandleSubmit(address);
      }
    }

    /** `goToPreviousStep`: one step back, or nothing on the first step. */
    method GoToPreviousStep()
      requires Valid()
      modifies this`currentStep, this`direction
      ensures Valid()
      ensures old(BackEnabled()) ==> currentStep == old(currentStep) - 1 && direction == -1
      ensures !old(BackEnabled()) ==> currentStep == 0 && direction == old(direction)
    {
      if currentStep > 0 {
        direction := -1;
        currentStep := currentStep - 1;
      }
    }

    /**
     * `form.handleSubmit(onSubmit)`: validate the whole form, record the
     * failing fields, and run `onSubmit` only when none fail. The form is
     * marked submitted once `onSubmit` has finished: at once when no
     * request is sent, and when the request settles otherwise.
     */
    method HandleSubmit(address: Option<string>) returns (request: Option<UserInput>)
      modifies this`submitted, this`errors, this`submitting
      ensures errors == FormIssues(values)
      ensures submitted == (request.None? || old(submitted))
      ensures request == (if FormValid(values) && Truthy(address) then Some(UserInput(address.value, values)) else None)
      ensures submitting == (request.Some? || old(submitting))
    {
      errors := FormIssues(values);
      if errors == {} {
        request := OnSubmit(address);
      } else {
        request := None;
      }
      if request.None? {
        submitted := true;
      }
    }

    /**
     * `onSubmit` up to the awaited request: without a connected address
     * nothing happens; otherwise the submission is marked in flight and
     * the form values are sent with the address.
     */
    method OnSubmit(address: Option<string>) returns (request: Option<UserInput>)
      modifies this`submitting
      ensures !Truthy(address) ==> request.None? && submitting == old(submitting)
      ensures Truthy(address) ==> request == Some(UserInput(address.value, values)) && submitting
    {
      if !Truthy(address) {
        return None;
      }
      submitting := true;
      request := Some(UserInput(address.value, values));
    }

    /**
     * `onSubmit` after the request settles: the in-flight flag is cleared
     * on every outcome, and only an ok response navigates to the dashboard.
     * The step does not change. `onSubmit` catches every failure, so the
     * submit handler then finishes and marks the form submitted.
     */
    method OnSubmitSettled(outcome: FetchOutcome<OnboardingRoute.OnboardingBody>) returns (nav: Option<Route>)
      modifies this`submitting, this`submitted
      ensures !submitting && submitted
      ensures nav.Some? <==> outcome.Received? && IsOk(outcome.response.status)
      ensures nav.Some? ==> nav.value == Dashboard
    {
      if outcome.Received? && IsOk(outcome.response.status) {
        nav := Some(Dashboard);
      } else {
        nav := None;
      }
      submitting := false;
      submitted := true;
    }

    /**
     * A checkbox change in one of the multi-select fields. Before the first
     * submit attempt the shown errors stay as they are; after it, the
     * changed field is validated again and only its own error is replaced.
     */
    method ToggleTagField(f: TagField, id: string, checked: bool)
      modifies this`values, this`errors
      ensures values == ToggleTag(old(values), f, id, checked)
      ensures !submitted ==> errors == old(errors)
      ensures submitted ==> (FieldName(f) in errors <==> FieldName(f) in FormIssues(values))
      ensures forall k :: k != FieldName(f) ==> (k in errors <==> k in old(errors))
      ensures submitted && f == InterestAreas && checked ==> "interestAreas" !in errors
    {
      values := ToggleTag(values, f, id, checked);
      if submitted {
        var name := FieldName(f);
        errors := (errors - {name}) + (FormIssues(values) * {name});
      }
    }

    /**
     * A press of the forward button. It is disabled while a submission is
     * in flight; on the last step it is the form's submit button, whose
     * submit handler does what `goToNextStep` does there.
     */
    method PressNext(address: Option<string>) returns (request: Option<UserInput>)
      requires Valid()
      modifies this
      ensures Valid()
      ensures old(submitting) ==> request.None? && unchanged(this)
      ensures !old(submitting) ==> SteppedForward(address, request)
      ensures request.Some? ==> !old(submitting) && submitting && old(currentStep) == LastStep
    {
      if !NextEnabled() {
        return None;
      }
      request := GoToNextStep(address);
    }

    /**
     * The same press as the page renders it. The click on step 1 re-renders
     * the button as the form's submit button before the browser runs the
     * button's default action, so that click also runs the submit handler
     * on step 2: the form is validated and, when it passes, sent at once.
     */
    method PressNextAsWritten(address: Option<string>) returns (request: Option<UserInput>)
      requires Valid()
      modifies this
      ensures Valid()
      ensures old(submitting) ==> request.None? && unchanged(this)
      ensures !old(submitting) && old(currentStep) != LastStep - 1 ==> SteppedForward(address, request)
      ensures !old(submitting) && old(currentStep) == LastStep - 1 ==>
                && currentStep == LastStep && direction == 1 && values == old(values)
                && errors == FormIssues(values)
                && request == (if FormValid(values) && Truthy(address) then Some(UserInput(address.value, values)) else None)
                && submitting == request.Some?
                && submitted == (request.None? || old(submitted))
    {
      if !NextEnabled() {
        return None;
      }
      var leavesSecondToLast := currentStep == LastStep - 1;
      request := GoToNextStep(address);
      if leavesSecondToLast {
        request := HandleSubmit(address);
      }
    }
  }
}

=== FILE: onboarding_route.dfy ===
/**
 * POST /api/user/onboarding: validate the JSON body against the server
 * schema, upsert the record keyed by wallet address, and answer with a
 * summary, a 400 listing the failing fields, or a generic 500.
 */
module OnboardingRoute {
  import opened Wrappers
  import opened Web
  import opened Profile
  import opened UserStore

  /** The keys of the server schema, each reported when its value fails. */
  const SchemaKeys: set<string> := {
    "walletAddress", "email", "agentName", "ensName", "interestAreas", "preferredDAOs",
    "votingStrategy", "delegateVoting", "skillsExpertise", "autoMonetization", "zkmlPrivacyPreference"
  }

  /** What the server schema asks of a typed request beyond the field types. */
  predicate ServerValid(u: UserInput) {
    && (u.fields.email.None? || IsEmail(u.fields.email.value))
    && |u.fields.agentName| >= 3
  }

  // ---- the wire form: JSON.stringify of the client's request ----

  function Strings(ss: seq<string>): (r: seq<Json>)
    ensures |r| == |ss|
    ensures forall i :: 0 <= i < |ss| ==> r[i] == JString(ss[i])
  {
    if ss == [] then [] else [JString(ss[0])] + Strings(ss[1..])
  }

  /** The request as a JSON object; an absent optional string is left out, as JSON.stringify drops undefined. */
  function EncodeUser(u: UserInput): (r: Json)
    ensures r.JObject? && SchemaKeys - {"email", "ensName"} <= r.fields.Keys <= SchemaKeys
    ensures "email" in r.fields <==> u.fields.email.Some?
    ensures "ensName" in r.fields <==> u.fields.ensName.Some?
  {
    var f := u.fields;
    var base := map[
      "walletAddress" := JString(u.walletAddress),
      "agentName" := JString(f.agentName),
      "interestAreas" := JArray(Strings(f.interestAreas)),
      "preferredDAOs" := JArray(Strings(f.preferredDAOs)),
      "votingStrategy" := JString(f.votingStrategy),
      "delegateVoting" := JBool(f.delegateVoting),
      "skillsExpertise" := JArray(Strings(f.skillsExpertise)),
      "autoMonetization" := JBool(f.autoMonetization),
      "zkmlPrivacyPreference" := JString(f.zkmlPrivacyPreference)];
    var withEmail := if f.email.Some? then base["email" := JString(f.email.value)] else base;
    JObject(if f.ensName.Some? then withEmail["ensName" := JString(f.ensName.value)] else withEmail)
  }

  // ---- the server schema, field by field ----

  /** `z.array(z.string())` on the items of an array: every item is a string. */
  function StringItems(items: seq<Json>): (r: Option<seq<string>>)
    ensures r.Some? <==> forall i :: 0 <= i < |items| ==> items[i].JString?
    ensures r.Some? ==> |r.value| == |items| && forall i :: 0 <= i < |items| ==> items[i] == JString(r.value[i])
  {
    if items == [] then Some([])
    else if !items[0].JString? then None
    else
      match StringItems(items[1..])
      case None => None
      case Some(rest) => Some([items[0].s] + rest)
  }

  /** `z.string()`: present and a string. */
  function StringField(m: map<string, Json>, k: string): Option<string> {
    if k in m && m[k].JString? then Some(m[k].s) else None
  }

  /** `z.string().optional()`: absent, or a string. */
  function OptionalStringField(m: map<string, Json>, k: string): Option<Option<string>> {
    if k !in m then Some(None) else if m[k].JString? then Some(Some(m[k].s)) else None
  }

  /** `z.string().email().optional()`: absent, or a string that is an email. */
  function OptionalEmailField(m: map<string, Json>, k: string): Option<Option<string>> {
    if k !in m then Some(None)
    else if m[k].JString? && IsEmail(m[k].s) then Some(Some(m[k].s))
    else None
  }

  /** `z.string().min(n)`: a string of at least n characters. */
  function MinStringField(m: map<string, Json>, k: string, n: nat): Option<string> {
    if k in m && m[k].JString? && |m[k].s| >= n then Some(m[k].s) else None
  }

  /** `z.array(z.string())`: an array of strings; no minimum length. */
  function StringArrayField(m: map<string, Json>, k: string): Option<seq<string>> {
    if k in m && m[k].JArray? then StringItems(m[k].items) else None
  }

  /** `z.boolean()`: present and a boolean. */
  function BoolField(m: map<string, Json>, k: string): Option<bool> {
    if k in m && m[k].JBool? then Some(m[k].b) else None
  }

  /** Whether the value under key k passes its schema entry. */
  predicate FieldAccepted(m: map<string, Json>, k: string) {
    if k == "walletAddress" then StringField(m, k).Some?
    else if k == "email" then OptionalEmailField(m, k).Some?
    else if k == "agentName" then MinStringField(m, k, 3).Some?
    else if k == "ensName" then OptionalStringField(m, k).Some?
    else if k == "delegateVoting" || k == "autoMonetization" then BoolField(m, k).Some?
    else if k == "interestAreas" || k == "preferredDAOs" || k == "skillsExpertise" then StringArrayField(m, k).Some?
    else StringField(m, k).Some?
  }

  /** The top-level paths the schema reports: "" when the body is not an object, else the failing keys. */
  function UserIssues(body: Json): (r: set<string>)
    ensures r <= SchemaKeys + {""}
    ensures "" in r <==> !body.JObject?
  {
    if !body.JObject? then {""}
    else set k | k in SchemaKeys && !FieldAccepted(body.fields, k)
  }

  /** `userSchema.parse`: the typed request, unknown keys dropped, or the failing paths. */
  function ParseUser(body: Json): (r: Result<UserInput, set<string>>)
    ensures r.Ok? <==> UserIssues(body) == {}
    ensures r.Err? ==> r.error == UserIssues(body) && r.error != {}
    ensures r.Ok? ==> ServerValid(r.value)
  {
    if !body.JObject? then Err({""})
    else
      var m := body.fields;
      var wallet := StringField(m, "walletAddress");
      var email := OptionalEmailField(m, "email");
      var name := MinStringField(m, "agentName", 3);
      var ens := OptionalStringField(m, "ensName");
      var interests := StringArrayField(m, "interestAreas");
      var daos := StringArrayField(m, "preferredDAOs");
      var strategy := StringField(m, "votingStrategy");
      var delegate := BoolField(m, "delegateVoting");
      var skills := StringArrayField(m, "skillsExpertise");
      var monetize := BoolField(m, "autoMonetization");
      var privacy := StringField(m, "zkmlPrivacyPreference");
      if && wallet.Some? && email.Some? && name.Some? && ens.Some? && interests.Some? && daos.Some?
         && strategy.Some? && delegate.Some? && skills.Some? && monetize.Some? && privacy.Some?
      then
        assert UserIssues(body) == {} by {
          forall k | k in SchemaKeys ensures FieldAccepted(m, k) { }
        }
        Ok(UserInput(wallet.value, ProfileFields(email.value, name.value, ens.value, interests.value,
                                                 daos.value, strategy.value, delegate.value, skills.value,
                                                 monetize.value, privacy.value)))
      else
        assert UserIssues(body) != {} by {
          IssueWitness(m, body);
        }
        Err(UserIssues(body))
  }

  lemma IssueWitness(m: map<string, Json>, body: Json)
    requires body == JObject(m)
    requires !(&& StringField(m, "walletAddress").Some? && OptionalEmailField(m, "email").Some?
               && MinStringField(m, "agentName", 3).Some? && OptionalStringField(m, "ensName").Some?
               && StringArrayField(m, "interestAreas").Some? && StringArrayField(m, "preferredDAOs").Some?
               && StringField(m, "votingStrategy").Some? && BoolField(m, "delegateVoting").Some?
               && StringArrayField(m, "skillsExpertise").Some? && BoolField(m, "autoMonetization").Some?
               && StringField(m, "zkmlPrivacyPreference").Some?)
    ensures UserIssues(body) != {}
  {
  }

  // ---- properties of the schema ----

  /** Reading an encoded list of strings gives the list back. */
  lemma StringItemsOfStrings(ss: seq<string>)
    ensures StringItems(Strings(ss)) == Some(ss)
  {
    var items := Strings(ss);
    var r := StringItems(items);
    forall i | 0 <= i < |ss|
      ensures r.value[i] == ss[i]
    {
      assert items[i] == JString(r.value[i]) && items[i] == JString(ss[i]);
    }
    assert r.value == ss;
  }

  lemma EncodedStringsReadBack(u: UserInput)
    ensures var m := EncodeUser(u).fields;
      && StringField(m, "walletAddress") == Some(u.walletAddress)
      && StringField(m, "votingStrategy") == Some(u.fields.votingStrategy)
      && StringField(m, "zkmlPrivacyPreference") == Some(u.fields.zkmlPrivacyPreference)
  {
  }

  lemma EncodedBoolsReadBack(u: UserInput)
    ensures var m := EncodeUser(u).fields;
      && BoolField(m, "delegateVoting") == Some(u.fields.delegateVoting)
      && BoolField(m, "autoMonetization") == Some(u.fields.autoMonetization)
  {
  }

  lemma EncodedArraysReadBack(u: UserInput)
    ensures var m := EncodeUser(u).fields;
      && StringArrayField(m, "interestAreas") == Some(u.fields.interestAreas)
      && StringArrayField(m, "preferredDAOs") == Some(u.fields.preferredDAOs)
      && StringArrayField(m, "skillsExpertise") == Some(u.fields.skillsExpertise)
  {
    var m := EncodeUser(u).fields;
    ArrayFieldReadBack(m, "interestAreas", u.fields.interestAreas);
    ArrayFieldReadBack(m, "preferredDAOs", u.fields.preferredDAOs);
    ArrayFieldReadBack(m, "skillsExpertise", u.fields.skillsExpertise);
  }

  lemma ArrayFieldReadBack(m: map<string, Json>, k: string, ss: seq<string>)
    requires k in m && m[k] == JArray(Strings(ss))
    ensures StringArrayField(m, k) == Some(ss)
  {
    StringItemsOfStrings(ss);
  }

  lemma EncodedCheckedReadBack(u: UserInput)
    ensures var m := EncodeUser(u).fields;
      && OptionalStringField(m, "ensName") == Some(u.fields.ensName)
      && (u.fields.email.None? || IsEmail(u.fields.email.value) <==> OptionalEmailField(m, "email").Some?)
      && (OptionalEmailField(m, "email").Some? ==> OptionalEmailField(m, "email") == Some(u.fields.email))
      && (|u.fields.agentName| >= 3 <==> MinStringField(m, "agentName", 3).Some?)
      && (MinStringField(m, "agentName", 3).Some? ==> MinStringField(m, "agentName", 3) == Some(u.fields.agentName))
  {
  }

  /** The body the client sends parses back to the request exactly when the request meets the server schema. */
  lemma ParseEncodeRoundTrip(u: UserInput)
    ensures ServerValid(u) ==> ParseUser(EncodeUser(u)) == Ok(u)
    ensures !ServerValid(u) ==> ParseUser(EncodeUser(u)).Err?
  {
    EncodedStringsReadBack(u);
    EncodedBoolsReadBack(u);
    EncodedArraysReadBack(u);
    EncodedCheckedReadBack(u);
  }

  /** Every field parser reads the body's map m as the corresponding value of u. */
  predicate ReadsAs(m: map<string, Json>, u: UserInput) {
    && StringField(m, "walletAddress") == Some(u.walletAddress)
    && OptionalEmailField(m, "email") == Some(u.fields.email)
    && MinStringField(m, "agentName", 3) == Some(u.fields.agentName)
    && OptionalStringField(m, "ensName") == Some(u.fields.ensName)
    && StringArrayField(m, "interestAreas") == Some(u.fields.interestAreas)
    && StringArrayField(m, "preferredDAOs") == Some(u.fields.preferredDAOs)
    && StringField(m, "votingStrategy") == Some(u.fields.votingStrategy)
    && BoolField(m, "delegateVoting") == Some(u.fields.delegateVoting)
    && StringArrayField(m, "skillsExpertise") == Some(u.fields.skillsExpertise)
    && BoolField(m, "autoMonetization") == Some(u.fields.autoMonetization)
    && StringField(m, "zkmlPrivacyPreference") == Some(u.fields.zkmlPrivacyPreference)
  }

  /** Every field parser succeeded on an accepted body, with the parsed request's value. */
  lemma ParsedFields(body: Json)
    requires ParseUser(body).Ok?
    ensures body.JObject? && ReadsAs(body.fields, ParseUser(body).value)
  {
  }

  /** An array the schema read as the strings ss is the encoding of ss. */
  lemma ArrayFieldIsEncoding(m: map<string, Json>, k: string, ss: seq<string>)
    requires StringArrayField(m, k) == Some(ss)
    ensures k in m && m[k] == JArray(Strings(ss))
  {
    var items := m[k].items;
    assert Strings(ss) == items by {
      forall i | 0 <= i < |items| ensures Strings(ss)[i] == items[i] { }
    }
  }

  /** Two JSON objects hold the same value under key k, or both lack it. */
  predicate Agrees(e: map<string, Json>, m: map<string, Json>, k: string) {
    (k in e <==> k in m) && (k in e ==> e[k] == m[k])
  }

  // The encoding of a request agrees, key by key, with a map read as that request.

  lemma StringKeysAgree(m: map<string, Json>, u: UserInput)
    requires ReadsAs(m, u)
    ensures var e := EncodeUser(u).fields;
      && Agrees(e, m, "walletAddress") && Agrees(e, m, "agentName")
      && Agrees(e, m, "votingStrategy") && Agrees(e, m, "zkmlPrivacyPreference")
  {
    var e := EncodeUser(u).fields;
    assert e["walletAddress"] == JString(u.walletAddress);
    assert e["agentName"] == JString(u.fields.agentName);
    assert e["votingStrategy"] == JString(u.fields.votingStrategy);
    assert e["zkmlPrivacyPreference"] == JString(u.fields.zkmlPrivacyPreference);
  }

  lemma BoolKeysAgree(m: map<string, Json>, u: UserInput)
    requires ReadsAs(m, u)
    ensures var e := EncodeUser(u).fields;
      Agrees(e, m, "delegateVoting") && Agrees(e, m, "autoMonetization")
  {
    var e := EncodeUser(u).fields;
    assert e["delegateVoting"] == JBool(u.fields.delegateVoting);
    assert e["autoMonetization"] == JBool(u.fields.autoMonetization);
  }

  lemma OptionalKeysAgree(m: map<string, Json>, u: UserInput)
    requires ReadsAs(m, u)
    ensures var e := EncodeUser(u).fields;
      Agrees(e, m, "email") && Agrees(e, m, "ensName")
  {
  }

  lemma ArrayKeysAgree(m: map<string, Json>, u: UserInput)
    requires ReadsAs(m, u)
    ensures var e := EncodeUser(u).fields;
      && Agrees(e, m, "interestAreas") && Agrees(e, m, "preferredDAOs") && Agrees(e, m, "skillsExpertise")
  {
    ArrayFieldIsEncoding(m, "interestAreas", u.fields.interestAreas);
    ArrayFieldIsEncoding(m, "preferredDAOs", u.fields.preferredDAOs);
    ArrayFieldIsEncoding(m, "skillsExpertise", u.fields.skillsExpertise);
  }

  /**
   * An accepted body is an object, and the parsed request carries exactly
   * the body's values under the schema keys: encoding it gives back the
   * body with the unknown keys dropped.
   */
  lemma AcceptedBodyIsEncoding(body: Json)
    requires ParseUser(body).Ok?
    ensures body.JObject?
    ensures "walletAddress" in body.fields && body.fields["walletAddress"] == JString(ParseUser(body).value.walletAddress)
    ensures EncodeUser(ParseUser(body).value).fields == (map k | k in body.fields && k in SchemaKeys :: body.fields[k])
  {
    ParsedFields(body);
    EncodingKeepsSchemaKeys(body.fields, ParseUser(body).value);
  }

  /** The encoding of a request is the schema-keyed part of any map the schema reads as that request. */
  lemma EncodingKeepsSchemaKeys(m: map<string, Json>, u: UserInput)
    requires ReadsAs(m, u)
    ensures EncodeUser(u).fields == (map k | k in m && k in SchemaKeys :: m[k])
  {
    var e := EncodeUser(u).fields;
    StringKeysAgree(m, u);
    BoolKeysAgree(m, u);
    OptionalKeysAgree(m, u);
    ArrayKeysAgree(m, u);
    AgreeingMapIsRestriction(e, m);
  }

  /** A map with only schema keys that agrees with m under each of them is m restricted to the schema keys. */
  lemma AgreeingMapIsRestriction(e: map<string, Json>, m: map<string, Json>)
    requires e.Keys <= SchemaKeys
    requires && Agrees(e, m, "walletAddress") && Agrees(e, m, "email") && Agrees(e, m, "agentName")
             && Agrees(e, m, "ensName") && Agrees(e, m, "interestAreas") && Agrees(e, m, "preferredDAOs")
             && Agrees(e, m, "votingStrategy") && Agrees(e, m, "delegateVoting")
             && Agrees(e, m, "skillsExpertise") && Agrees(e, m, "autoMonetization")
             && Agrees(e, m, "zkmlPrivacyPreference")
    ensures e == (map k | k in m && k in SchemaKeys :: m[k])
  {
    assert forall k :: k in SchemaKeys ==> Agrees(e, m, k);
    var kept := map k | k in m && k in SchemaKeys :: m[k];
    assert e.Keys == kept.Keys;
  }

  /** The server schema has no minimum on `interestAreas`, unlike the wizard's. */
  lemma ServerAcceptsNoInterests(u: UserInput)
    requires ServerValid(u) && u.fields.interestAreas == []
    ensures ParseUser(EncodeUser(u)) == Ok(u)
  {
    ParseEncodeRoundTrip(u);
  }

  /** A name shorter than three characters is reported under `agentName`. */
  lemma ShortNameRejected(m: map<string, Json>)
    requires "agentName" in m && m["agentName"].JString? && |m["agentName"].s| < 3
    ensures ParseUser(JObject(m)).Err? && "agentName" in ParseUser(JObject(m)).error
  {
  }

  /** A `delegateVoting` that is not a boolean is reported under `delegateVoting`. */
  lemma NonBooleanDelegateRejected(m: map<string, Json>)
    requires "delegateVoting" in m && !m["delegateVoting"].JBool?
    ensures ParseUser(JObject(m)).Err? && "delegateVoting" in ParseUser(JObject(m)).error
  {
  }

  // ---- the endpoint ----

  /** The user summary of a success response. */
  datatype Summary = Summary(id: nat, walletAddress: string, agentName: string)

  /** The three response bodies: `success: true` with the summary, or `success: false` with an error. */
  datatype OnboardingBody =
    | Saved(user: Summary)
    | ValidationFailed(error: string, details: set<string>)
    | Failed(error: string)

  function SummaryOf(rec: User): Summary {
    Summary(rec.id, rec.walletAddress, rec.fields.agentName)
  }

  const ValidationError: string := "Validation error"
  const SaveFailed: string := "Failed to create user profile"

  /**
   * The POST handler. `body` is None when the request body is not JSON;
   * `storeFails` says whether the table rejects the write, which then
   * leaves it as it was.
   */
  method Post(table: UserTable, body: Option<Json>, storeFails: bool) returns (resp: Response<OnboardingBody>)
    requires table.Valid()
    modifies table
    ensures table.Valid()
    ensures resp.status == 200 <==> body.Some? && ParseUser(body.value).Ok? && !storeFails
    ensures resp.status != 200 ==> unchanged(table)
    ensures body.None? ==> resp == Response(500, Failed(SaveFailed))
    ensures body.Some? && ParseUser(body.value).Err? ==>
              resp == Response(400, ValidationFailed(ValidationError, ParseUser(body.value).error))
    ensures body.Some? && ParseUser(body.value).Ok? && storeFails ==> resp == Response(500, Failed(SaveFailed))
    ensures resp.status == 200 ==>
              var u := ParseUser(body.value).value;
              var rec := UpsertRecord(old(table.users), old(table.nextId), u);
              && table.users == old(table.users)[u.walletAddress := rec]
              && table.nextId == NextIdAfter(old(table.users), old(table.nextId), u)
              && resp.body == Saved(SummaryOf(rec))
  {
    if body.None? {
      return Response(500, Failed(SaveFailed));
    }
    var parsed := ParseUser(body.value);
    if parsed.Err? {
      return Response(400, ValidationFailed(ValidationError, parsed.error));
    }
    if storeFails {
      return Response(500, Failed(SaveFailed));
    }
    var user := table.Upsert(parsed.value);
    resp := Response(200, Saved(SummaryOf(user)));
  }
}

=== FILE: profile.dfy ===
/**
 * The onboarding profile: the ten fields the wizard collects and the
 * onboarding endpoint stores, and the request record that adds the
 * wallet address.
 */
module Profile {
  import opened Wrappers

  /** The form values of the wizard; `email` and `ensName` may be absent (undefined). */
  datatype ProfileFields = ProfileFields(
    email: Option<string>,
    agentName: string,
    ensName: Option<string>,
    interestAreas: seq<string>,
    preferredDAOs: seq<string>,
    votingStrategy: string,
    delegateVoting: bool,
    skillsExpertise: seq<string>,
    autoMonetization: bool,
    zkmlPrivacyPreference: string)

  /** A validated onboarding request: the form values plus the wallet address that keys the record. */
  datatype UserInput = UserInput(walletAddress: string, fields: ProfileFields)
}

=== FILE: profile_route.dfy ===
/**
 * GET /api/user/profile?walletAddress=…: the selected columns of the
 * record for the address, 404 when there is none. A read-only lookup.
 */
module ProfileRoute {
  import opened Wrappers
  import opened Web
  import opened Profile
  import opened UserStore

  /** The columns the route selects: everything but the three JSON columns. */
  datatype ProfileView = ProfileView(
    id: nat,
    walletAddress: string,
    fields: ProfileFields,
    profilePicture: Option<string>,
    zkmlReputationScore: Option<int>,
    hasCompletedOnboarding: bool)

  function Select(u: User): ProfileView {
    ProfileView(u.id, u.walletAddress, u.fields, u.profilePicture, u.zkmlReputationScore, u.hasCompletedOnboarding)
  }

  datatype ProfileBody =
    | Found(user: ProfileView)
    | ProfileError(error: string)

  const AddressRequired: string := "Wallet address is required"
  const NotFound: string := "User not found"
  const FetchFailed: string := "Failed to fetch user profile"

  /** The handler; `storeFails` says whether the lookup throws. */
  function GetProfile(users: map<string, User>, walletAddress: Option<string>, storeFails: bool): (r: Response<ProfileBody>)
    ensures !Truthy(walletAddress) ==> r == Response(400, ProfileError(AddressRequired))
    ensures Truthy(walletAddress) && storeFails ==> r == Response(500, ProfileError(FetchFailed))
    ensures Truthy(walletAddress) && !storeFails && walletAddress.value !in users ==>
              r == Response(404, ProfileError(NotFound))
    ensures r.status == 200 <==> Truthy(walletAddress) && !storeFails && walletAddress.value in users
    ensures r.status == 200 ==> r.body.Found? && r.body.user == Select(users[walletAddress.value])
  {
    if !Truthy(walletAddress) then Response(400, ProfileError(AddressRequired))
    else if storeFails then Response(500, ProfileError(FetchFailed))
    else if walletAddress.value !in users then Response(404, ProfileError(NotFound))
    else Response(200, Found(Select(users[walletAddress.value])))
  }

  /** What the profile shows for a stored record: its key and id, its form values and its onboarding flag. */
  lemma FoundShowsRecord(users: map<string, User>, a: string)
    requires a != "" && a in users
    ensures var r := GetProfile(users, Some(a), false);
      && r.status == 200
      && r.body.user.walletAddress == users[a].walletAddress
      && r.body.user.id == users[a].id
      && r.body.user.fields == users[a].fields
      && r.body.user.hasCompletedOnboarding == users[a].hasCompletedOnboarding
  {
  }
}

=== FILE: user_store.dfy ===
/**
 * The user table behind the three endpoints: one record per wallet
 * address, and the create and update data the onboarding endpoint hands
 * to the table's upsert.
 */
module UserStore {
  import opened Wrappers
  import opened Web
  import opened Profile

  /** A stored user. The three JSON columns are extensibility fields the onboarding endpoint resets. */
  datatype User = User(
    id: nat,
    walletAddress: string,
    fields: ProfileFields,
    hasCompletedOnboarding: bool,
    pastContributions: Json,
    onChainActivity: Json,
    smartContractPermissions: Json,
    profilePicture: Option<string>,
    zkmlReputationScore: Option<int>)

  /**
   * The table is keyed by wallet address: every record sits under its own
   * address, ids are below the next id to hand out, and no two records
   * share an id.
   */
  ghost predicate Consistent(users: map<string, User>, nextId: nat) {
    && (forall a :: a in users ==> users[a].walletAddress == a && users[a].id < nextId)
    && (forall a, b :: a in users && b in users && a != b ==> users[a].id != users[b].id)
  }

  /**
   * The record written for a submission: it carries the submitted address
   * and name, onboarding is complete, and the three JSON columns are `{}`.
   */
  ghost predicate Reflects(rec: User, u: UserInput) {
    && rec.walletAddress == u.walletAddress
    && rec.fields.agentName == u.fields.agentName
    && rec.fields.interestAreas == u.fields.interestAreas
    && rec.fields.preferredDAOs == u.fields.preferredDAOs
    && rec.fields.votingStrategy == u.fields.votingStrategy
    && rec.fields.delegateVoting == u.fields.delegateVoting
    && rec.fields.skillsExpertise == u.fields.skillsExpertise
    && rec.fields.autoMonetization == u.fields.autoMonetization
    && rec.fields.zkmlPrivacyPreference == u.fields.zkmlPrivacyPreference
    && (u.fields.email.Some? ==> rec.fields.email == u.fields.email)
    && (u.fields.ensName.Some? ==> rec.fields.ensName == u.fields.ensName)
    && rec.hasCompletedOnboarding
    && rec.pastContributions == EmptyObject
    && rec.onChainActivity == EmptyObject
    && rec.smartContractPermissions == EmptyObject
  }

  /** The `create` data: a new record with the given id; absent optional strings are stored as null. */
  function Created(id: nat, u: UserInput): (r: User)
    ensures Reflects(r, u) && r.id == id
    ensures r.fields == u.fields
    ensures r.profilePicture.None? && r.zkmlReputationScore.None?
  {
    User(id, u.walletAddress, u.fields, true, EmptyObject, EmptyObject, EmptyObject, None, None)
  }

  /** A value left undefined in `update` data leaves the stored column as it was. */
  function Keep(given: Option<string>, stored: Option<string>): Option<string> {
    if given.Some? then given else stored
  }

  /** The `update` data applied to a stored record; `id` and the key are never part of it. */
  function Updated(rec: User, u: UserInput): (r: User)
    requires rec.walletAddress == u.walletAddress
    ensures Reflects(r, u)
    ensures r.id == rec.id && r.walletAddress == rec.walletAddress
    ensures r.profilePicture == rec.profilePicture && r.zkmlReputationScore == rec.zkmlReputationScore
    ensures u.fields.email.None? ==> r.fields.email == rec.fields.email
    ensures u.fields.ensName.None? ==> r.fields.ensName == rec.fields.ensName
  {
    var f := u.fields.(email := Keep(u.fields.email, rec.fields.email),
                       ensName := Keep(u.fields.ensName, rec.fields.ensName));
    rec.(fields := f, hasCompletedOnboarding := true,
         pastContributions := EmptyObject, onChainActivity := EmptyObject,
         smartContractPermissions := EmptyObject)
  }

  /** The record an upsert leaves under `u.walletAddress`. */
  function UpsertRecord(users: map<string, User>, nextId: nat, u: UserInput): (r: User)
    requires Consistent(users, nextId)
    ensures Reflects(r, u)
    ensures u.walletAddress in users ==> r.id == users[u.walletAddress].id
    ensures u.walletAddress !in users ==> r.id == nextId
  {
    if u.walletAddress in users then Updated(users[u.walletAddress], u) else Created(nextId, u)
  }

  /** The id counter after an upsert: advanced only when a record was created. */
  function NextIdAfter(users: map<string, User>, nextId: nat, u: UserInput): nat {
    if u.walletAddress in users then nextId else nextId + 1
  }

  /** The table after an upsert of `u`. */
  function Upserted(users: map<string, User>, nextId: nat, u: UserInput): map<string, User>
    requires Consistent(users, nextId)
  {
    users[u.walletAddress := UpsertRecord(users, nextId, u)]
  }

  /** An upsert keeps the table keyed by address with unique ids, and touches no other address. */
  lemma UpsertKeepsConsistent(users: map<string, User>, nextId: nat, u: UserInput)
    requires Consistent(users, nextId)
    ensures Consistent(Upserted(users, nextId, u), NextIdAfter(users, nextId, u))
    ensures Upserted(users, nextId, u).Keys == users.Keys + {u.walletAddress}
    ensures forall b :: b in users && b != u.walletAddress ==> Upserted(users, nextId, u)[b] == users[b]
  {
  }

  /** The table the endpoints share: the map from wallet address to record, and the id counter. */
  class UserTable {
    var users: map<string, User>
    var nextId: nat

    ghost predicate Valid()
      reads this
    {
      Consistent(users, nextId)
    }

    constructor ()
      ensures Valid() && users == map[] && nextId == 0
    {
      users := map[];
      nextId := 0;
    }

    /**
     * Create the record for `u.walletAddress` if absent, otherwise apply
     * the update data to it; other addresses are untouched.
     */
    method Upsert(u: UserInput) returns (user: User)
      requires Valid()
      modifies this
      ensures Valid()
      ensures user == UpsertRecord(old(users), old(nextId), u)
      ensures users == old(users)[u.walletAddress := user]
      ensures nextId == NextIdAfter(old(users), old(nextId), u)
    {
      UpsertKeepsConsistent(users, nextId, u);
      if u.walletAddress in users {
        user := Updated(users[u.walletAddress], u);
      } else {
        user := Created(nextId, u);
        nextId := nextId + 1;
      }
      users := users[u.walletAddress := user];
    }
  }
}

=== FILE: web.dfy ===
/**
 * The web-platform values the application code exchanges: parsed JSON,
 * HTTP responses as `fetch` sees them, the two client routes, JavaScript
 * truthiness of an optional string, and the email check of the schema
 * library.
 */
module Web {
  import opened Wrappers

  /** A parsed JSON value. Numbers are integers here; objects are maps from key to value. */
  datatype Json =
    | JNull
    | JBool(b: bool)
    | JNumber(n: int)
    | JString(s: string)
    | JArray(items: seq<Json>)
    | JObject(fields: map<string, Json>)

  /** The literal `{}`. */
  const EmptyObject: Json := JObject(map[])

  /** An HTTP response: a status code and a JSON body of type B. */
  datatype Response<B> = Response(status: nat, body: B)

  /** `response.ok` of the fetch API. */
  predicate IsOk(status: nat) {
    200 <= status <= 299
  }

  /** What an awaited `fetch(...)` followed by `response.json()` yields: an exception or a response. */
  datatype FetchOutcome<B> = Threw | Received(response: Response<B>)

  /** The client-side routes `router.push` is called with. */
  datatype Route = Dashboard | Onboarding

  /** JavaScript truthiness of a string that may be undefined or null: present and non-empty. */
  predicate Truthy(s: Option<string>) {
    s.Some? && s.value != ""
  }

  /**
   * Stand-in for the schema library's `.email()` check: one '@' with a
   * non-empty part before it and a domain after it that has a dot with
   * characters on both sides.
   */
  predicate IsEmail(s: string) {
    exists i :: 0 < i < |s| && s[i] == '@' && '@' !in s[..i] && EmailDomain(s[i + 1..])
  }

  predicate EmailDomain(d: string) {
    '@' !in d && exists j :: 0 < j < |d| - 1 && d[j] == '.'
  }
}

=== FILE: wrappers.dfy ===
/** Option and Result, the failure-carrying values used throughout the model. */
module Wrappers {

  datatype Option<+T> = None | Some(value: T)

  datatype Result<+R, +E> = Ok(value: R) | Err(error: E)
}
